=== FILE: README.md ===
# FirstBlockChain ledger engine in Dafny

This project models the ledger engine of FirstBlockChain, a minimal
append-only chain of blocks. Each block holds a batch of balance transfers
and is linked to its parent by a content hash. The model covers:

- the balance state and its functional update;
- the admission rule for a transaction: the deltas sum to zero and no
  account is overdrawn;
- block construction, including the genesis block;
- the batching loop that drains the transaction buffer into blocks;
- replay validation of a whole chain.

Modules, leaf first:

- `Results` (`results.dfy`): `Option` and `Result`.
- `Ledger` (`ledger.dfy`): balances (`State`) and transactions (`Txn`).
  Both are `map<string, int>`.
  - `UpdateState` applies a transaction.
  - `Total` is the sum of a map's values. It is a ghost function.
  - `ValidTxn` is the admission rule, stated on `Total`.
  - `IsValidTxn` is the loop that decides the rule. It sums the deltas,
    then checks each touched account.
- `Blocks` (`blocks.dfy`): `Contents`, `Block`, `Genesis` and `MakeBlock`.
  The content hash is a parameter `H: Contents -> string`. All results hold
  for every deterministic hash. The hash function itself is not modelled.
- `Validation` (`validation.dfy`): replay validation with explicit error
  kinds.
  - The running state is threaded through every block and transaction, as
    the validator's comments describe (first_block_chain.py:144-147).
  - Checks run in the code's order: transactions, stored hash, block
    number, parent hash.
  - The first failure names its block.
  - The validators (`ReplayTxns`, `CheckBlockValidity`, `CheckChain`) are
    ghost functions. They depend on `Total`, which chooses keys from a set.
- `Builder` (`builder.dfy`): the batching loop of `createChain`.
  - `BuildChain` is the two nested loops. The buffer is popped from its end.
  - `FillBatch`, `BuildFrom` and `BuildSpec` are the functional reference.
    `BuildChain` is proved equal to `BuildSpec`.
  - Every built chain is well formed, and replay validation returns the
    builder's own final state for it.
- `AsWritten` (`as_written.dfy`): the validator as the code actually
  behaves. There, `isValidTxn` and `updateState` read the builder's
  `self.state` instead of a running state. Concrete lemmas show where this
  differs from the threaded replay (see Findings).
- `Scenarios` (`scenarios.dfy`): a worked example on the functional model.

Three points about the code that the model follows:

- A batch is full only after `limit` acceptances (first_block_chain.py:35).
  So a block is never closed early for lack of valid transactions. An empty
  block appears only as the last block, when every remaining transaction was
  rejected (`FillBatch`, `FullExceptLast`).
- The validator checks a block's transactions before its hash
  (first_block_chain.py:128-133). So a tampered block whose forged
  transactions are inadmissible is reported as an invalid transaction, not as
  a hash mismatch. `TamperedBlockFails` covers both outcomes, and
  `TamperedBlockRejected` gives the hash mismatch when the forged
  transactions are admissible.
- The validator does not check `txnCount` (first_block_chain.py:118-141). A
  changed count is caught only through the hash.

Together, `FullExceptLast` and the `Flatten` ensures of `BuildChain` fix the
block sizes. With limit 10, a buffer holding 25 transactions that are all
admissible in pop order gives blocks of 10, 10 and 5 after genesis.

The model of the validator itself follows the intended threaded replay. The
literal behaviour is recorded under Findings.

## Model

| member | source | states |
|---|---|---|
| `Ledger.UpdateState` | first_block_chain.py:82-90 | The result has the keys of the state and the transaction together. A touched account that is already present gains its delta. A touched account that is absent gets the delta as its balance. Every untouched account keeps its balance. The input is never changed: the function is pure. |
| `Ledger.UpdateAddsTotal` | first_block_chain.py:84-89 | Applying a transaction moves the total of all balances by exactly the sum of its deltas, with absent accounts counted as 0. |
| `Ledger.IsValidTxn` | first_block_chain.py:92-106 | Returns true exactly when the deltas sum to 0 and, for every touched account, its balance (0 if absent) plus its delta is at least 0. A non-zero sum gives false whatever the state. |
| `Ledger.ValidTxnConserves` | first_block_chain.py:10-11 | An admitted transaction leaves the total number of tokens unchanged. |
| `Ledger.ValidTxnKeepsNonNegative` | first_block_chain.py:99-105 | If every balance is non-negative and the transaction overdraws no account, every balance after the update is non-negative. |
| `Ledger.ValidPair` | first_block_chain.py:95-105 | A two-account transfer is admitted exactly when its two deltas cancel and neither account would go below 0. |
| `Blocks.Genesis` | first_block_chain.py:22-26 | The genesis block has number 0, no parent hash, a count of 1, and the initial balances as its single transaction. Its stored hash is the hash of its contents. |
| `Blocks.MakeBlock` | first_block_chain.py:55-63 | The new block carries the hash of its own contents. Its number is the parent's plus 1. Its parent hash is the parent's stored hash. It holds exactly the given transactions, and its count is their number. |
| `Validation.CheckBlockHash` | first_block_chain.py:111-116 | Passes exactly when the stored hash equals the hash of the contents. Otherwise it fails with a hash mismatch naming the block's number. |
| `Validation.ReplayTxns` | first_block_chain.py:128-132 | Admits and applies the transactions in order against the running state, and stops at the first inadmissible one, which is one of the block's transactions. A successful replay gives the same state as applying the transactions unchecked. It keeps the token total and keeps non-negative balances non-negative. |
| `Validation.ReplayAdmitsEach` | first_block_chain.py:128-132 | In a successful replay, each transaction was admissible against the state that all earlier transactions produced. |
| `Validation.ReplayAcceptsAdmissible` | first_block_chain.py:128-132 | Conversely, if each transaction is admissible against the state the earlier ones produce, the replay succeeds. |
| `Validation.ReplayStopsAtFirst` | first_block_chain.py:128-132 | A failed replay reports the first inadmissible transaction: it sits at some position k, is not admissible against the state the first k transactions produce, and every transaction before it was admissible. |
| `Validation.CheckBlockValidity` | first_block_chain.py:118-141 | A block passes exactly when its transactions replay, its stored hash matches, and it is linked to its parent by number and parent hash. It then returns the replayed state. Every failure names the block's number. The first failing check decides the error: an invalid transaction, then a hash mismatch, then a block-number mismatch, then a parent-hash mismatch. |
| `Validation.CheckGenesis` | first_block_chain.py:158-161 | Genesis passes exactly when its stored hash matches. Its result is its transactions applied, unchecked, to the empty state. A failure is a hash mismatch naming its number. |
| `Validation.CheckChain` | first_block_chain.py:143-169 | If the chain validates, it is non-empty and every block's hash matches. Every block after genesis follows its predecessor by number and parent hash. The final state has the genesis total of tokens, and is non-negative if genesis is. Any failure on a non-empty chain names one of its blocks. Only the empty chain gives `EmptyChain`. |
| `Validation.CheckChainAppend` | first_block_chain.py:164-166 | Validating a chain with one more block means validating the new block against the state the shorter chain replays to. |
| `Validation.CheckChainPrefix` | first_block_chain.py:164-166 | Every non-empty prefix of a valid chain is valid. |
| `Validation.ErrorAtFirstFault` | first_block_chain.py:128-139 | Validation fails fast. When the blocks before block i replay and block i fails, the whole chain fails with exactly block i's error. |
| `Validation.ErrorPersists` | first_block_chain.py:164-166 | Once a prefix of the chain fails, the whole chain fails with the same error, because the replay stops at the first failure. |
| `Validation.BrokenBlockRejected` | first_block_chain.py:111-116 | Validation fails whenever block i has a wrong stored hash. It also fails whenever block i does not follow its predecessor, either by number (first_block_chain.py:135-136) or by parent hash (first_block_chain.py:138-139). The error names block i or an earlier block. |
| `Validation.GenesisReplay` | first_block_chain.py:21-27 | A chain holding only the genesis block for balances `init` validates to `init`. |
| `Validation.EmptyBlockPassesState` | first_block_chain.py:128-141 | A linked, correctly hashed block with no transactions passes the running state on unchanged. |
| `Validation.TamperedBlockRejected` | first_block_chain.py:111-115 | Suppose the transactions of block i are replaced without recomputing its hash, the earlier blocks replay, and the new contents hash differently. Then validation fails with a hash mismatch at block i. |
| `Validation.TamperedBlockFails` | first_block_chain.py:128-133 | With no condition on the forged transactions, replacing block i's transactions without recomputing its hash makes validation fail at block i, with either an invalid transaction or a hash mismatch. |
| `Builder.PopOrder` | first_block_chain.py:36 | Popping a buffer visits its elements from the last to the first: position i of the result is position length-1-i of the buffer. |
| `Builder.FillBatch` | first_block_chain.py:33-45 | The inner loop. It never exceeds the limit and only appends to the batch. What remains of the buffer is a prefix of it, strictly shorter whenever the loop can run. A batch below the limit means the buffer is empty. The newly batched transactions are exactly those that `Kept` admits from the popped part of the buffer, taken in pop order, and they replay to the returned state. |
| `Builder.FillBatchStopsWhenFull` | first_block_chain.py:35 | The inner loop pops nothing once the batch is full. A batch that reaches `limit` ends with the transaction popped last, and every element below it stays in the buffer for the next block. `FillBatchFullAtLastPop` states the same stop point by position. |
| `Builder.FillBatchFullAtLastPop` | first_block_chain.py:35-45 | The stop point of a full batch, by position (`FullAtLastPop`). If the batch reaches `limit`, at least one element was popped. The pops before the last one, in pop order, kept fewer transactions than the batch still had room for. So the batch filled exactly at the last pop, and the loop stopped there. |
| `Builder.BuildFrom` | first_block_chain.py:30-48 | The outer loop only appends blocks: the input chain is a prefix of the result. |
| `Builder.BuildFromCollects` | first_block_chain.py:30-48 | The outer loop loses and invents nothing. The blocks it appends hold, in pop order, exactly the transactions that `Kept` admits from the whole buffer. The final state is those transactions applied to the starting state. |
| `Builder.BuildFromSound` | first_block_chain.py:30-48 | Start from a well-formed chain that validates to the running state, whose blocks between genesis and the last are full, and whose last block is full unless the chain is genesis alone. Building from it gives a well-formed chain, where block i has number i and each later block is `MakeBlock` of its predecessor with at most `limit` transactions. That chain validates to the final running state, and every block but the last is full. |
| `Builder.BuildSpecSound` | first_block_chain.py:20-48 | A chain built from the genesis balances is well formed and starts with the genesis block. Every block but the last is full, and the chain validates to the builder's final state. |
| `Builder.BuildSpecCollects` | first_block_chain.py:20-48 | The blocks after genesis hold, in pop order, exactly the buffer's transactions that are admissible when popped. The builder's final state is the initial balances with those transactions applied. |
| `Builder.BuildSpecShape` | first_block_chain.py:30-48 | Spells out what a built chain looks like, block by block: numbers equal positions, blocks hold at most `limit` transactions, counts are correct, hashes match, and parents link. An empty buffer gives the genesis block alone with the initial balances. A non-empty buffer adds at least one block, even when every transaction is rejected. |
| `Builder.BuildChain` | first_block_chain.py:20-48 | The loop computes exactly the functional reference `BuildSpec`. It carries every structural property above. Validating its chain returns the state the loop itself ended with. Its blocks after genesis hold exactly the admissible transactions of the buffer in pop order, and its state is their effect on the initial balances. A non-empty buffer adds at least one block. |
| `Builder.GenesisHolds200` | first_block_chain.py:21-24 | The genesis block for Alice 100 and Bob 100 replays to a state holding 200 tokens, with no negative balance. |
| `Builder.CreateChain` | first_block_chain.py:20-53 | With Alice and Bob at 100 each and blocks of ten, the built chain validates to the builder's state. That state holds 200 tokens in total and no negative balance. |
| `AsWritten.FirstInvalid` | first_block_chain.py:128-132 | Finds the first transaction not admissible against the fixed builder state: it sits at a position before which every transaction is admissible. None means all are admissible. |
| `AsWritten.LiteralCheckBlockValidity` | first_block_chain.py:118-141 | As written, a block passes exactly when every transaction is admissible against the fixed state, the hash matches, the block is linked, and it holds at least one transaction. The result is the fixed state updated by the last transaction only. A wrong number with everything else right is a hash mismatch. Every failure names the block. |
| `AsWritten.LiteralAgreesOnSingleTxn` | first_block_chain.py:118-141 | On a correctly numbered block holding one transaction, the code as written and the threaded check give the same result. |
| `AsWritten.LiteralGenesisState` | first_block_chain.py:158-160 | As written, the genesis replay of one transaction gives the fixed state plus the intended genesis balances, account by account. With no transaction it gives the empty state. |
| `AsWritten.LiteralCheckGenesis` | first_block_chain.py:158-161 | As written, genesis passes exactly when its stored hash matches, with the literal genesis replay as its result. A failure is a hash mismatch naming its number. |
| `AsWritten.LiteralExtend` | first_block_chain.py:164-166 | One step of the loop as written: a failed prefix keeps its error, which is never `EmptyChain`. When the new block passes, the extended chain keeps every hash intact and every link in place, and the result is the fixed state updated by the new block's last transaction. |
| `AsWritten.LiteralCheckChain` | first_block_chain.py:143-169 | As written, a passing chain is non-empty, every hash matches, and every later block is linked and non-empty. The result is the literal genesis state for a one-block chain. Otherwise it is the fixed state updated by the last transaction of the last block. Only the empty chain gives `EmptyChain`. |
| `AsWritten.LiteralRejectsOwnChain` | first_block_chain.py:128-132 | For the buffer [PayBack, AllIn], the threaded replay accepts the built chain with Alice 50 and Bob 150. The code as written raises an invalid transaction at block 1 on its own chain. |
| `AsWritten.LiteralRejectsAllIn` | first_block_chain.py:128-132 | Checked against the fixed state Alice 50, Bob 150, the chain [genesis, block of AllIn and PayBack] fails as written with an invalid transaction AllIn at block 1. |
| `AsWritten.LiteralDoublesGenesis` | first_block_chain.py:158-160 | With an empty buffer, the threaded replay returns Alice 100 and Bob 100. The code as written returns 200 each. |
| `AsWritten.LiteralCrashesOnEmptyBlock` | first_block_chain.py:141 | For the buffer [Overdraw], the builder seals an empty block 1 and keeps the genesis balances. The threaded replay accepts the chain. The code as written ends with no result bound. |
| `AsWritten.LiteralMislabelsNumberMismatch` | first_block_chain.py:135-136 | A block with a correct hash and parent but the wrong number is reported as a number mismatch by the model. The code as written reports it with the hash-mismatch message. |
| `Scenarios.TransferAccepted` | first_block_chain.py:82-106 | The buffer [Alice -30, Bob +30] builds one block. Builder and replay both end at Alice 70 and Bob 130. |

## Left out

- `makeTransaction`, and the buffer generation and `random.seed` in
  `__init__`: these use randomness. The buffer is an arbitrary
  `seq<Txn>` parameter.
- `blockSizeLimit` is a parameter `limit` with `requires limit > 0`.
  The code fixes it at 10, which `CreateChain` uses. With 0 the outer loop
  would never end.
- `HashMe`: the SHA-256 digest and the key-sorted JSON serialisation are
  foreign library calls. They are replaced by the parameter `H`. Its branch
  for string messages is not reached by the core.
- All `print` and `sys.stdout.flush` output, including the "Ignored
  transaction" report for a rejected transaction. This is console I/O.
- The `json.loads` rehydration and the `type(...)` checks at the start of
  `checkChain` (first_block_chain.py:149-156). They parse and type-check
  external input, and the model's chain is already typed.
- The Python 2/3 branch in `HashMe` and the `__main__` entry point.
- IsValidTxn: models `sum(...) is not 0` (first_block_chain.py:95) as the
  comparison of the sum with 0. The code is Python 2, where `is` tests object
  identity. A zero sum of plain integers is the shared small-integer 0, so the
  two agree. A zero sum that Python 2 holds as a long integer (`0L`) is a
  different object, and the code rejects it. For example, the balanced
  transaction {Alice: 2**63, Bob: -2**63} against Bob holding 2**63 is
  rejected by the code and admitted by the model. The builder never reaches
  this case: its generated deltas are between -3 and 3, and the balances start
  at 100.

## Findings

| source | as written | input that shows it | evidently intended | confidence | as-written member | corrected member |
|---|---|---|---|---|---|---|
| first_block_chain.py:128-132 | each transaction is checked against the builder's final `self.state`, and the block's result is `self.state` updated by its last transaction only | buffer [PayBack, AllIn], i.e. Alice -100/Bob +100 popped first, then Alice +50/Bob -50: the code rejects its own chain at block 1 | replay each transaction against the running state threaded from genesis | not executed; high | `AsWritten.LiteralRejectsOwnChain` | `Builder.BuildChain` |
| first_block_chain.py:158-160 | the genesis transactions are applied to `self.state`, not to the empty state | empty buffer: the replay returns Alice 200, Bob 200 | Alice 100, Bob 100 | not executed; high | `AsWritten.LiteralDoublesGenesis` | `Validation.GenesisReplay` |
| first_block_chain.py:141 | a block without transactions never assigns `state`, so the return raises | buffer [Overdraw] (Alice -150, Bob +150): block 1 is empty | pass the running state through unchanged | not executed; high | `AsWritten.LiteralCrashesOnEmptyBlock` | `Validation.EmptyBlockPassesState` |
| first_block_chain.py:135-136 | a wrong block number is reported with the hash-mismatch message | genesis followed by a correctly hashed, correctly parented block numbered 5 | report a block-number mismatch | not executed; medium | `AsWritten.LiteralMislabelsNumberMismatch` | `Validation.CheckBlockValidity` |

=== FILE: as_written.dfy ===
/**
 * The chain validator exactly as the ledger's code behaves. The admission
 * check and the state update there read the builder's own final state rather
 * than a state passed in, so every block is checked against that one state,
 * a block returns the update of its last transaction only, and a block
 * without transactions has no result at all. The lemmas below show, on
 * concrete buffers, where this differs from the threaded replay of module
 * Validation.
 */
module AsWritten {
  import opened Results
  import opened Ledger
  import opened Blocks
  import opened Validation
  import opened Builder

  /** The first transaction not admissible against `fixed`, the builder's final state, if any. */
  ghost function FirstInvalid(fixed: State, txns: seq<Txn>): (r: Option<Txn>)
    ensures r.Some? ==> r.value in txns && !ValidTxn(r.value, fixed)
    ensures r.Some? ==> exists k :: 0 <= k < |txns| && txns[k] == r.value
                                    && forall j :: 0 <= j < k ==> ValidTxn(txns[j], fixed)
    ensures r.None? ==> forall i :: 0 <= i < |txns| ==> ValidTxn(txns[i], fixed)
    decreases |txns|
  {
    if txns == [] then None
    else if !ValidTxn(txns[0], fixed) then Some(txns[0])
    else
      var r := FirstInvalid(fixed, txns[1..]);
      if r.None? then r
      else
        var k :| 0 <= k < |txns[1..]| && txns[1..][k] == r.value
                 && forall j :: 0 <= j < k ==> ValidTxn(txns[1..][j], fixed);
        assert txns[k + 1] == r.value;
        assert forall j :: 0 <= j < k + 1 ==> ValidTxn(txns[j], fixed) by {
          forall j | 0 <= j < k + 1 ensures ValidTxn(txns[j], fixed) {
            if j > 0 { assert txns[j] == txns[1..][j - 1]; }
          }
        }
        r
  }

  /**
   * One block as the code checks it: every transaction against `fixed`, then
   * the hash, then the number (reported with the hash message), then the
   * parent hash; the result is `fixed` updated by the last transaction, and
   * a block without transactions fails on its unset result.
   */
  ghost function LiteralCheckBlockValidity(H: Hasher, fixed: State, b: Block, parent: Block): (r: Result<State, ChainError>)
    ensures r.Ok? <==> (&& (forall i :: 0 <= i < |b.contents.txns| ==> ValidTxn(b.contents.txns[i], fixed))
                        && HashIntact(H, b) && Linked(parent, b) && b.contents.txns != [])
    ensures r.Ok? ==> r.value == UpdateState(fixed, b.contents.txns[|b.contents.txns| - 1])
    ensures r.Err? ==> NamesBlock(r.error, b.contents.blockNumber)
    ensures (&& (forall i :: 0 <= i < |b.contents.txns| ==> ValidTxn(b.contents.txns[i], fixed))
             && HashIntact(H, b) && b.contents.blockNumber != parent.contents.blockNumber + 1)
            ==> r == Err(HashMismatch(b.contents.blockNumber))
  {
    var n := b.contents.blockNumber;
    match FirstInvalid(fixed, b.contents.txns)
    case Some(t) => Err(InvalidTransaction(n, t))
    case None =>
      if !HashIntact(H, b) then Err(HashMismatch(n))
      else if n != parent.contents.blockNumber + 1 then Err(HashMismatch(n))
      else if b.contents.parentHash != Some(parent.hash) then Err(ParentHashMismatch(n))
      else if b.contents.txns == [] then Err(UnboundState(n))
      else Ok(UpdateState(fixed, b.contents.txns[|b.contents.txns| - 1]))
  }

  /** The genesis replay as written: the empty map, or `fixed` updated by the last genesis transaction. */
  function LiteralGenesisState(fixed: State, g: Block): (r: State)
    ensures g.contents.txns == [] ==> r == GenesisState(g)
    ensures |g.contents.txns| == 1 ==> forall a :: Bal(r, a) == Bal(fixed, a) + Bal(GenesisState(g), a)
  {
    var txns := g.contents.txns;
    if txns == [] then map[]
    else
      var r := UpdateState(fixed, txns[|txns| - 1]);
      if |txns| != 1 then r
      else
        UpdateEmpty(txns[0]);
        assert txns[1..] == [];
        assert ApplyAll(map[], txns) == ApplyAll(UpdateState(map[], txns[0]), []);
        assert GenesisState(g) == txns[0];
        r
  }

  /**
   * One step of the code's chain loop: a prefix that failed keeps its error,
   * otherwise block `b` is checked against the fixed state with the last block
   * of `prefix` as its parent.
   */
  ghost function LiteralExtend(H: Hasher, fixed: State, p: Result<State, ChainError>, prefix: seq<Block>, b: Block)
    : (r: Result<State, ChainError>)
    requires |prefix| >= 1
    requires p.Ok? ==> forall i :: 0 <= i < |prefix| ==> HashIntact(H, prefix[i])
    requires p.Ok? ==> forall i :: 1 <= i < |prefix| ==> Linked(prefix[i - 1], prefix[i]) && prefix[i].contents.txns != []
    requires p.Err? ==> p.error != EmptyChain
    ensures r.Ok? ==> forall i :: 0 <= i < |prefix| + 1 ==> HashIntact(H, (prefix + [b])[i])
    ensures r.Ok? ==> forall i :: 1 <= i < |prefix| + 1 ==>
              Linked((prefix + [b])[i - 1], (prefix + [b])[i]) && (prefix + [b])[i].contents.txns != []
    ensures r.Ok? ==> b.contents.txns != [] && r.value == UpdateState(fixed, b.contents.txns[|b.contents.txns| - 1])
    ensures r.Err? ==> r.error != EmptyChain
  {
    if p.Err? then p
    else
      var r := LiteralCheckBlockValidity(H, fixed, b, prefix[|prefix| - 1]);
      if r.Err? then
        assert NamesBlock(r.error, b.contents.blockNumber);
        r
      else
        assert forall i :: 0 <= i < |prefix| ==> (prefix + [b])[i] == prefix[i];
        r
  }

  /** The whole chain as the code checks it, with `fixed` the builder's final state. */
  ghost function LiteralCheckChain(H: Hasher, fixed: State, chain: seq<Block>): (r: Result<State, ChainError>)
    ensures r.Ok? ==> |chain| > 0
    ensures r.Ok? ==> forall i :: 0 <= i < |chain| ==> HashIntact(H, chain[i])
    ensures r.Ok? ==> forall i :: 1 <= i < |chain| ==> Linked(chain[i - 1], chain[i]) && chain[i].contents.txns != []
    ensures r.Ok? && |chain| == 1 ==> r.value == LiteralGenesisState(fixed, chain[0])
    ensures r.Ok? && |chain| >= 2 ==>
              var last := chain[|chain| - 1].contents.txns;
              r.value == UpdateState(fixed, last[|last| - 1])
    ensures r.Err? ==> (r.error == EmptyChain <==> |chain| == 0)
    decreases |chain|
  {
    if |chain| == 0 then Err(EmptyChain)
    else if |chain| == 1 then LiteralCheckGenesis(H, fixed, chain[0])
    else
      var prefix := chain[..|chain| - 1];
      assert prefix + [chain[|chain| - 1]] == chain;
      LiteralExtend(H, fixed, LiteralCheckChain(H, fixed, prefix), prefix, chain[|chain| - 1])
  }

  /** The genesis block as the code checks it: the literal replay, then the hash. */
  ghost function LiteralCheckGenesis(H: Hasher, fixed: State, g: Block): (r: Result<State, ChainError>)
    ensures r.Ok? <==> HashIntact(H, g)
    ensures r.Ok? ==> r.value == LiteralGenesisState(fixed, g)
    ensures r.Err? ==> r.error == HashMismatch(g.contents.blockNumber)
  {
    if !HashIntact(H, g) then Err(HashMismatch(g.contents.blockNumber)) else Ok(LiteralGenesisState(fixed, g))
  }

  /**
   * On a block with exactly one transaction and the right number, the code as
   * written and the threaded check agree: there is no earlier transaction whose
   * effect the fixed state could miss.
   */
  lemma LiteralAgreesOnSingleTxn(H: Hasher, s: State, b: Block, parent: Block)
    requires |b.contents.txns| == 1
    requires b.contents.blockNumber == parent.contents.blockNumber + 1
    ensures LiteralCheckBlockValidity(H, s, b, parent) == CheckBlockValidity(H, s, b, parent)
  {
    var t := b.contents.txns[0];
    assert b.contents.txns[1..] == [];
    if ValidTxn(t, s) {
      ReplayCons(s, t, []);
      assert [t] + [] == b.contents.txns;
    }
  }

  /** Alice pays Bob everything she has. */
  const AllIn: Txn := map["Alice" := -100, "Bob" := 100]

  /** Bob then pays half of it back. */
  const PayBack: Txn := map["Alice" := 50, "Bob" := -50]

  /** Alice tries to pay more than she has. */
  const Overdraw: Txn := map["Alice" := -150, "Bob" := 150]

  /** AllIn is admitted against the genesis balances and leaves Alice at 0. */
  lemma AllInStep()
    ensures ValidTxn(AllIn, GenesisBalances)
    ensures UpdateState(GenesisBalances, AllIn) == map["Alice" := 0, "Bob" := 200]
  {
    ValidPair(GenesisBalances, AllIn, "Alice", "Bob");
    UpdatePair(GenesisBalances, AllIn, "Alice", "Bob");
  }

  /** PayBack is then admitted and leaves Alice at 50. */
  lemma PayBackStep()
    ensures ValidTxn(PayBack, map["Alice" := 0, "Bob" := 200])
    ensures UpdateState(map["Alice" := 0, "Bob" := 200], PayBack) == map["Alice" := 50, "Bob" := 150]
  {
    var s1 := map["Alice" := 0, "Bob" := 200];
    ValidPair(s1, PayBack, "Alice", "Bob");
    UpdatePair(s1, PayBack, "Alice", "Bob");
  }

  /** From Alice 0, Bob 200 with AllIn batched, PayBack is admitted and the buffer runs out. */
  lemma PayBackBatch()
    ensures FillBatch(map["Alice" := 0, "Bob" := 200], [PayBack], [AllIn], BlockSizeLimit)
              == Batch(map["Alice" := 50, "Bob" := 150], [AllIn, PayBack], [])
  {
    var s2 := map["Alice" := 50, "Bob" := 150];
    PayBackStep();
    assert FillBatch(s2, [], [AllIn, PayBack], BlockSizeLimit) == Batch(s2, [AllIn, PayBack], []);
    var buf := [PayBack];
    assert buf[|buf| - 1] == PayBack && buf[..|buf| - 1] == [];
    assert [AllIn] + [PayBack] == [AllIn, PayBack];
  }

  /** AllIn then PayBack are both admitted, leaving Alice at 50 and Bob at 150. */
  lemma AllInPayBackBatch()
    ensures FillBatch(GenesisBalances, [PayBack, AllIn], [], BlockSizeLimit)
              == Batch(map["Alice" := 50, "Bob" := 150], [AllIn, PayBack], [])
  {
    var s1 := map["Alice" := 0, "Bob" := 200];
    AllInStep();
    var buf := [PayBack, AllIn];
    assert buf[|buf| - 1] == AllIn && buf[..|buf| - 1] == [PayBack];
    assert [] + [AllIn] == [AllIn];
    assert FillBatch(GenesisBalances, buf, [], BlockSizeLimit) == FillBatch(s1, [PayBack], [AllIn], BlockSizeLimit);
    PayBackBatch();
  }

  /** The buffer [PayBack, AllIn] builds genesis plus one block holding AllIn then PayBack. */
  lemma AllInPayBackChain(H: Hasher)
    ensures var g := Genesis(H, GenesisBalances);
      BuildSpec(H, GenesisBalances, [PayBack, AllIn], BlockSizeLimit)
        == Built([g, MakeBlock(H, g, [AllIn, PayBack])], map["Alice" := 50, "Bob" := 150])
  {
    var g := Genesis(H, GenesisBalances);
    var s2 := map["Alice" := 50, "Bob" := 150];
    AllInPayBackBatch();
    var b1 := MakeBlock(H, g, [AllIn, PayBack]);
    assert [g] + [b1] == [g, b1];
    assert BuildFrom(H, s2, [g, b1], [], BlockSizeLimit) == Built([g, b1], s2);
  }

  /** Checked against Alice 50, Bob 150, AllIn overdraws Alice, so block 1 is rejected. */
  lemma LiteralRejectsAllIn(H: Hasher)
    ensures var g := Genesis(H, GenesisBalances);
      LiteralCheckChain(H, map["Alice" := 50, "Bob" := 150], [g, MakeBlock(H, g, [AllIn, PayBack])])
        == Err(InvalidTransaction(1, AllIn))
  {
    var g := Genesis(H, GenesisBalances);
    var s2 := map["Alice" := 50, "Bob" := 150];
    var b1 := MakeBlock(H, g, [AllIn, PayBack]);
    ValidPair(s2, AllIn, "Alice", "Bob");
    assert FirstInvalid(s2, [AllIn, PayBack]) == Some(AllIn);
    assert LiteralCheckBlockValidity(H, s2, b1, g) == Err(InvalidTransaction(1, AllIn));
    assert [g, b1][..1] == [g];
    assert LiteralCheckChain(H, s2, [g]).Ok?;
  }

  /**
   * The buffer [PayBack, AllIn] (AllIn is popped first) builds a chain whose
   * replay succeeds, but the code as written rejects its own chain: it checks
   * AllIn against the final balances, where Alice holds only 50.
   */
  lemma LiteralRejectsOwnChain(H: Hasher)
    ensures var g := Genesis(H, GenesisBalances);
            var built := BuildSpec(H, GenesisBalances, [PayBack, AllIn], BlockSizeLimit);
      && built == Built([g, MakeBlock(H, g, [AllIn, PayBack])], map["Alice" := 50, "Bob" := 150])
      && CheckChain(H, built.chain) == Ok(built.state)
      && LiteralCheckChain(H, built.state, built.chain) == Err(InvalidTransaction(1, AllIn))
  {
    AllInPayBackChain(H);
    BuildSpecSound(H, GenesisBalances, [PayBack, AllIn], BlockSizeLimit);
    LiteralRejectsAllIn(H);
  }

  /**
   * With an empty buffer the chain is the genesis block alone, and the code as
   * written replays the genesis balances on top of the builder's balances,
   * reporting 200 tokens each instead of 100.
   */
  lemma LiteralDoublesGenesis(H: Hasher)
    ensures var built := BuildSpec(H, GenesisBalances, [], BlockSizeLimit);
      && built == Built([Genesis(H, GenesisBalances)], GenesisBalances)
      && CheckChain(H, built.chain) == Ok(GenesisBalances)
      && LiteralCheckChain(H, built.state, built.chain) == Ok(map["Alice" := 200, "Bob" := 200])
  {
    GenesisReplay(H, GenesisBalances);
    UpdatePair(GenesisBalances, GenesisBalances, "Alice", "Bob");
  }

  /**
   * The buffer [Overdraw] has its only transaction rejected, so the builder
   * seals an empty block 1. The threaded replay passes it; the code as written
   * reaches its return with no result bound.
   */
  lemma LiteralCrashesOnEmptyBlock(H: Hasher)
    ensures var g := Genesis(H, GenesisBalances);
            var built := BuildSpec(H, GenesisBalances, [Overdraw], BlockSizeLimit);
      && built == Built([g, MakeBlock(H, g, [])], GenesisBalances)
      && CheckChain(H, built.chain) == Ok(GenesisBalances)
      && LiteralCheckChain(H, built.state, built.chain) == Err(UnboundState(1))
  {
    var g := Genesis(H, GenesisBalances);
    ValidPair(GenesisBalances, Overdraw, "Alice", "Bob");
    assert [Overdraw][..0] == [];
    assert FillBatch(GenesisBalances, [Overdraw], [], BlockSizeLimit) == Batch(GenesisBalances, [], []);
    var b1 := MakeBlock(H, g, []);
    assert [g] + [b1] == [g, b1];
    assert BuildFrom(H, GenesisBalances, [g, b1], [], BlockSizeLimit) == Built([g, b1], GenesisBalances);
    assert BuildSpec(H, GenesisBalances, [Overdraw], BlockSizeLimit) == Built([g, b1], GenesisBalances);
    BuildSpecSound(H, GenesisBalances, [Overdraw], BlockSizeLimit);
    assert [g, b1][..1] == [g];
  }

  /**
   * A correctly hashed, correctly parented block numbered 5 after genesis:
   * the code as written reports it with the hash-mismatch message, although
   * only its number is wrong.
   */
  lemma LiteralMislabelsNumberMismatch(H: Hasher)
    ensures var g := Genesis(H, GenesisBalances);
            var c := Contents(5, Some(g.hash), 0, []);
            var chain := [g, Block(H(c), c)];
      && CheckChain(H, chain) == Err(BlockNumberMismatch(5))
      && LiteralCheckChain(H, GenesisBalances, chain) == Err(HashMismatch(5))
  {
    var g := Genesis(H, GenesisBalances);
    var c := Contents(5, Some(g.hash), 0, []);
    assert [g, Block(H(c), c)][..1] == [g];
  }
}

=== FILE: blocks.dfy ===
/**
 * Blocks of the chain: the hashed contents, the genesis block, and the
 * construction of a child block linked to its parent.
 */
module Blocks {
  import opened Results
  import opened Ledger

  /** The hashed part of a block. The genesis block has no parent hash. */
  datatype Contents = Contents(blockNumber: int, parentHash: Option<string>, txnCount: int, txns: seq<Txn>)

  /** A block: its contents and the hash stored alongside them. */
  datatype Block = Block(hash: string, contents: Contents)

  /**
   * The content hash. The ledger hashes a canonical (key-sorted) serialisation,
   * so equal contents always get equal digests; nothing else about it is assumed.
   */
  type Hasher = Contents -> string

  /** The stored hash is the hash of the contents. */
  predicate HashIntact(H: Hasher, b: Block)
  {
    b.hash == H(b.contents)
  }

  /** `b` follows `parent`: the next block number and the parent's stored hash. */
  predicate Linked(parent: Block, b: Block)
  {
    && b.contents.blockNumber == parent.contents.blockNumber + 1
    && b.contents.parentHash == Some(parent.hash)
  }

  /** The first block: number 0, no parent, the initial balances as its single transaction. */
  function Genesis(H: Hasher, init: State): (b: Block)
    ensures b.contents.blockNumber == 0 && b.contents.parentHash == None
    ensures b.contents.txnCount == 1 && b.contents.txns == [init]
    ensures HashIntact(H, b)
  {
    var c := Contents(0, None, 1, [init]);
    Block(H(c), c)
  }

  /**
   * Seals a batch of transactions into the block that follows `parent`.
   * The transactions are not re-validated here.
   */
  function MakeBlock(H: Hasher, parent: Block, txns: seq<Txn>): (b: Block)
    ensures HashIntact(H, b) && Linked(parent, b)
    ensures b.contents.txns == txns && b.contents.txnCount == |txns|
  {
    var c := Contents(parent.contents.blockNumber + 1, Some(parent.hash), |txns|, txns);
    Block(H(c), c)
  }
}

=== FILE: builder.dfy ===
/**
 * Chain construction: the transaction buffer is drained from its end, each
 * admissible transaction is applied to the running state and batched, and a
 * batch is sealed into a block once it holds `limit` transactions or the
 * buffer is empty. Inadmissible transactions are skipped.
 *
 * FillBatch and BuildFrom define this functionally; BuildChain is the loop.
 */
module Builder {
  import opened Results
  import opened Ledger
  import opened Blocks
  import opened Validation

  /** The balances the genesis block hands out. */
  const GenesisBalances: State := map["Alice" := 100, "Bob" := 100]

  /** Number of transactions per block. */
  const BlockSizeLimit: nat := 10

  /** The outcome of gathering one batch: running state, batch, what is left of the buffer. */
  datatype Batch = Batch(state: State, txns: seq<Txn>, rest: seq<Txn>)

  /** The outcome of building: the chain and the builder's running state. */
  datatype Built = Built(chain: seq<Block>, state: State)

  /** A prefix of the buffer without its last element is a prefix of the buffer. */
  lemma PopPrefix(buffer: seq<Txn>, rest: seq<Txn>)
    requires |buffer| > 0 && |rest| < |buffer|
    requires rest == buffer[..|buffer| - 1][..|rest|]
    ensures rest == buffer[..|rest|]
  {
  }

  /** Batching an admitted transaction extends the replay of the batch by that transaction. */
  lemma AdmittedStep(s: State, t: Txn, batch: seq<Txn>, txns: seq<Txn>, final: State)
    requires ValidTxn(t, s)
    requires |txns| >= |batch| + 1 && txns[..|batch| + 1] == batch + [t]
    requires ReplayTxns(UpdateState(s, t), txns[|batch| + 1..]) == Ok(final)
    ensures txns[..|batch|] == batch
    ensures txns[|batch|..] == [t] + txns[|batch| + 1..]
    ensures ReplayTxns(s, txns[|batch|..]) == Ok(final)
  {
    assert txns[..|batch| + 1][..|batch|] == txns[..|batch|];
    var tail := txns[|batch|..];
    assert tail[0] == txns[..|batch| + 1][|batch|] == t;
    assert tail[1..] == txns[|batch| + 1..];
    assert tail == [tail[0]] + tail[1..];
    ReplayCons(s, t, tail[1..]);
  }

  /** The order in which the ledger pops a buffer: from its last element to its first. */
  function PopOrder(buffer: seq<Txn>): (r: seq<Txn>)
    ensures |r| == |buffer|
    ensures forall i :: 0 <= i < |buffer| ==> r[i] == buffer[|buffer| - 1 - i]
    decreases |buffer|
  {
    if buffer == [] then [] else [buffer[|buffer| - 1]] + PopOrder(buffer[..|buffer| - 1])
  }

  /**
   * The transactions an admission pass keeps: each popped transaction is kept
   * exactly when it is admissible against the state the kept ones before it
   * produce. An independent statement of what the inner loop batches.
   */
  ghost function Kept(s: State, popped: seq<Txn>): seq<Txn>
    decreases |popped|
  {
    if popped == [] then []
    else if ValidTxn(popped[0], s) then [popped[0]] + Kept(UpdateState(s, popped[0]), popped[1..])
    else Kept(s, popped[1..])
  }

  /** Popping the part of the buffer above `k` starts with its last element. */
  lemma PopOrderLast(buffer: seq<Txn>, k: nat)
    requires k < |buffer|
    ensures PopOrder(buffer[k..]) == [buffer[|buffer| - 1]] + PopOrder(buffer[..|buffer| - 1][k..])
  {
    var xs := buffer[k..];
    assert xs[|xs| - 1] == buffer[|buffer| - 1];
    assert xs[..|xs| - 1] == buffer[..|buffer| - 1][k..];
  }

  /** An admissible first transaction is kept, and the rest is judged from the state it produces. */
  lemma KeptAdmits(s: State, t: Txn, popped: seq<Txn>)
    requires ValidTxn(t, s)
    ensures Kept(s, [t] + popped) == [t] + Kept(UpdateState(s, t), popped)
  {
    assert ([t] + popped)[0] == t && ([t] + popped)[1..] == popped;
  }

  /** An inadmissible first transaction is dropped and the state is unchanged. */
  lemma KeptSkips(s: State, t: Txn, popped: seq<Txn>)
    requires !ValidTxn(t, s)
    ensures Kept(s, [t] + popped) == Kept(s, popped)
  {
    assert ([t] + popped)[0] == t && ([t] + popped)[1..] == popped;
  }

  /**
   * The inner loop: pops transactions from the end of `buffer` while it is
   * non-empty and the batch is below `limit`; admissible ones are appended to
   * the batch and applied to the state.
   */
  ghost function FillBatch(s: State, buffer: seq<Txn>, batch: seq<Txn>, limit: nat): (r: Batch)
    ensures |batch| <= limit ==> |r.txns| <= limit
    ensures |r.txns| >= |batch| && r.txns[..|batch|] == batch
    ensures |r.rest| <= |buffer| && r.rest == buffer[..|r.rest|]
    ensures |buffer| > 0 && |batch| < limit ==> |r.rest| < |buffer|
    ensures |r.txns| < limit ==> r.rest == []
    ensures ReplayTxns(s, r.txns[|batch|..]) == Ok(r.state)
    ensures r.txns[|batch|..] == Kept(s, PopOrder(buffer[|r.rest|..]))
    decreases |buffer|
  {
    if |buffer| == 0 || |batch| >= limit then
      assert batch[|batch|..] == [];
      assert buffer[|buffer|..] == [];
      Batch(s, batch, buffer)
    else
      var t := buffer[|buffer| - 1];
      var rest := buffer[..|buffer| - 1];
      if ValidTxn(t, s) then
        var r := FillBatch(UpdateState(s, t), rest, batch + [t], limit);
        AdmittedStep(s, t, batch, r.txns, r.state);
        PopPrefix(buffer, r.rest);
        PopOrderLast(buffer, |r.rest|);
        KeptAdmits(s, t, PopOrder(rest[|r.rest|..]));
        r
      else
        var r := FillBatch(s, rest, batch, limit);
        PopPrefix(buffer, r.rest);
        PopOrderLast(buffer, |r.rest|);
        KeptSkips(s, t, PopOrder(rest[|r.rest|..]));
        r
  }

  /** What is kept from the buffer above `k` starts with the buffer's last element exactly when that element is admissible. */
  lemma ShiftKept(s: State, buffer: seq<Txn>, k: nat)
    requires k < |buffer|
    ensures var t, front := buffer[|buffer| - 1], buffer[..|buffer| - 1];
      Kept(s, PopOrder(buffer[k..]))
        == if ValidTxn(t, s) then [t] + Kept(UpdateState(s, t), PopOrder(front[k..])) else Kept(s, PopOrder(front[k..]))
  {
    var t, front := buffer[|buffer| - 1], buffer[..|buffer| - 1];
    PopOrderLast(buffer, k);
    if ValidTxn(t, s) {
      KeptAdmits(s, t, PopOrder(front[k..]));
    } else {
      KeptSkips(s, t, PopOrder(front[k..]));
    }
  }

  /** One pass of the inner loop that admits the popped transaction. */
  lemma FillBatchAdmits(s: State, buffer: seq<Txn>, batch: seq<Txn>, limit: nat)
    requires |buffer| > 0 && |batch| < limit && ValidTxn(buffer[|buffer| - 1], s)
    ensures var t := buffer[|buffer| - 1];
      FillBatch(s, buffer, batch, limit) == FillBatch(UpdateState(s, t), buffer[..|buffer| - 1], batch + [t], limit)
  {
  }

  /** One pass of the inner loop that rejects the popped transaction. */
  lemma FillBatchSkips(s: State, buffer: seq<Txn>, batch: seq<Txn>, limit: nat)
    requires |buffer| > 0 && |batch| < limit && !ValidTxn(buffer[|buffer| - 1], s)
    ensures FillBatch(s, buffer, batch, limit) == FillBatch(s, buffer[..|buffer| - 1], batch, limit)
  {
  }

  /**
   * Popping stops as soon as the batch is full: a batch that reaches `limit`
   * ends with the transaction popped last, and the buffer below it is kept.
   */
  lemma {:induction false} FillBatchStopsWhenFull(s: State, buffer: seq<Txn>, batch: seq<Txn>, limit: nat)
    requires |batch| < limit
    ensures var r := FillBatch(s, buffer, batch, limit);
      |r.txns| == limit ==> |r.rest| < |buffer| && r.txns[limit - 1] == buffer[|r.rest|]
    decreases |buffer|
  {
    if |buffer| > 0 {
      var t := buffer[|buffer| - 1];
      var rest := buffer[..|buffer| - 1];
      if ValidTxn(t, s) {
        if |batch| + 1 < limit {
          FillBatchStopsWhenFull(UpdateState(s, t), rest, batch + [t], limit);
        } else {
          assert FillBatch(UpdateState(s, t), rest, batch + [t], limit) == Batch(UpdateState(s, t), batch + [t], rest);
        }
      } else {
        FillBatchStopsWhenFull(s, rest, batch, limit);
      }
    }
  }

  /**
   * The stop point of a full batch, by position: if filling `batch` from
   * `buffer` reaches `limit`, some transaction was popped (`r.rest` is shorter
   * than `buffer`), and the pops before the last one, `buffer[|r.rest| + 1..]`
   * in pop order, kept fewer than `limit - |batch|` transactions.
   */
  ghost predicate FullAtLastPop(s: State, buffer: seq<Txn>, batch: seq<Txn>, limit: nat)
  {
    var r := FillBatch(s, buffer, batch, limit);
    |r.txns| == limit ==> |r.rest| < |buffer| && |batch| + |Kept(s, PopOrder(buffer[|r.rest| + 1..]))| < limit
  }

  /** The stop point carries over a pop that admits a transaction without filling the batch. */
  lemma FullAtLastPopAdmitted(s: State, buffer: seq<Txn>, batch: seq<Txn>, limit: nat)
    requires |buffer| > 0 && |batch| + 1 < limit
    requires ValidTxn(buffer[|buffer| - 1], s)
    requires FullAtLastPop(UpdateState(s, buffer[|buffer| - 1]), buffer[..|buffer| - 1], batch + [buffer[|buffer| - 1]], limit)
    ensures FullAtLastPop(s, buffer, batch, limit)
  {
    var t, rest := buffer[|buffer| - 1], buffer[..|buffer| - 1];
    var s1 := UpdateState(s, t);
    var r := FillBatch(s, buffer, batch, limit);
    FillBatchAdmits(s, buffer, batch, limit);
    assert r == FillBatch(s1, rest, batch + [t], limit);
    if |r.txns| == limit {
      assert |r.rest| < |rest|;
      var k := |r.rest| + 1;
      assert |batch| + 1 + |Kept(s1, PopOrder(rest[k..]))| < limit;
      ShiftKept(s, buffer, k);
      assert Kept(s, PopOrder(buffer[k..])) == [t] + Kept(s1, PopOrder(rest[k..]));
    }
  }

  /** The stop point carries over a pop that rejects a transaction. */
  lemma FullAtLastPopSkipped(s: State, buffer: seq<Txn>, batch: seq<Txn>, limit: nat)
    requires |buffer| > 0 && |batch| < limit
    requires !ValidTxn(buffer[|buffer| - 1], s)
    requires FullAtLastPop(s, buffer[..|buffer| - 1], batch, limit)
    ensures FullAtLastPop(s, buffer, batch, limit)
  {
    var rest := buffer[..|buffer| - 1];
    var r := FillBatch(s, buffer, batch, limit);
    FillBatchSkips(s, buffer, batch, limit);
    assert r == FillBatch(s, rest, batch, limit);
    if |r.txns| == limit {
      assert |r.rest| < |rest|;
      var k := |r.rest| + 1;
      assert |batch| + |Kept(s, PopOrder(rest[k..]))| < limit;
      ShiftKept(s, buffer, k);
      assert Kept(s, PopOrder(buffer[k..])) == Kept(s, PopOrder(rest[k..]));
    }
  }

  /**
   * The same stop point, by position rather than by value: when the batch is
   * full, what was kept from the buffer above the last pop still left the
   * batch below `limit`, so that pop was the one that filled it.
   */
  /** The pop that fills the batch also empties the buffer. */
  lemma FullAtLastPopClosing(s: State, buffer: seq<Txn>, batch: seq<Txn>, limit: nat)
    requires |buffer| > 0 && |batch| + 1 == limit
    requires ValidTxn(buffer[|buffer| - 1], s)
    ensures FullAtLastPop(s, buffer, batch, limit)
  {
    var t, rest := buffer[|buffer| - 1], buffer[..|buffer| - 1];
    var r := FillBatch(s, buffer, batch, limit);
    FillBatchAdmits(s, buffer, batch, limit);
    assert r.rest == rest;
    assert buffer[|rest| + 1..] == [];
  }

  /**
   * The stop point by position: when the batch fills, the transaction popped
   * last sits just above `r.rest`, and the pops before it admitted fewer than
   * `limit` transactions, so the batch could not have filled any earlier.
   */
  lemma {:induction false} FillBatchFullAtLastPop(s: State, buffer: seq<Txn>, batch: seq<Txn>, limit: nat)
    requires |batch| < limit
    ensures FullAtLastPop(s, buffer, batch, limit)
    decreases |buffer|
  {
    if |buffer| > 0 {
      var t, rest := buffer[|buffer| - 1], buffer[..|buffer| - 1];
      if !ValidTxn(t, s) {
        FillBatchFullAtLastPop(s, rest, batch, limit);
        FullAtLastPopSkipped(s, buffer, batch, limit);
      } else if |batch| + 1 < limit {
        FillBatchFullAtLastPop(UpdateState(s, t), rest, batch + [t], limit);
        FullAtLastPopAdmitted(s, buffer, batch, limit);
      } else {
        FullAtLastPopClosing(s, buffer, batch, limit);
      }
    } else {
      assert FillBatch(s, buffer, batch, limit).txns == batch;
    }
  }

  /**
   * The outer loop: while the buffer is non-empty, gathers a batch and appends
   * the block that seals it.
   */
  ghost function BuildFrom(H: Hasher, s: State, chain: seq<Block>, buffer: seq<Txn>, limit: nat): (r: Built)
    requires |chain| > 0 && limit > 0
    ensures |r.chain| >= |chain| && r.chain[..|chain|] == chain
    ensures |buffer| > 0 ==> |r.chain| > |chain|
    decreases |buffer|
  {
    if |buffer| == 0 then Built(chain, s)
    else
      var b := FillBatch(s, buffer, [], limit);
      var r := BuildFrom(H, b.state, chain + [MakeBlock(H, chain[|chain| - 1], b.txns)], b.rest, limit);
      assert r.chain[..|chain|] == (r.chain[..|chain| + 1])[..|chain|];
      r
  }

  /** The chain and state built from the initial balances and a transaction buffer. */
  ghost function BuildSpec(H: Hasher, init: State, buffer: seq<Txn>, limit: nat): Built
    requires limit > 0
  {
    BuildFrom(H, init, [Genesis(H, init)], buffer, limit)
  }

  /** The transactions of a run of blocks, block after block. */
  function Flatten(blocks: seq<Block>): seq<Txn>
    decreases |blocks|
  {
    if blocks == [] then [] else blocks[0].contents.txns + Flatten(blocks[1..])
  }

  /** Filtering two runs of popped transactions is filtering the first, then the second from the state the first leaves. */
  lemma {:induction false} KeptAppend(s: State, xs: seq<Txn>, ys: seq<Txn>)
    ensures Kept(s, xs + ys) == Kept(s, xs) + Kept(ApplyAll(s, Kept(s, xs)), ys)
    decreases |xs|
  {
    if xs == [] {
      assert xs + ys == ys;
    } else {
      var t := xs[0];
      assert xs + ys == [t] + (xs[1..] + ys);
      assert xs == [t] + xs[1..];
      if ValidTxn(t, s) {
        var s1 := UpdateState(s, t);
        KeptAdmits(s, t, xs[1..] + ys);
        KeptAdmits(s, t, xs[1..]);
        KeptAppend(s1, xs[1..], ys);
        assert ApplyAll(s, [t] + Kept(s1, xs[1..])) == ApplyAll(s1, Kept(s1, xs[1..]));
      } else {
        KeptSkips(s, t, xs[1..] + ys);
        KeptSkips(s, t, xs[1..]);
        KeptAppend(s, xs[1..], ys);
      }
    }
  }

  /** Popping a whole buffer pops the part above `k`, then the part below it. */
  lemma {:induction false} PopOrderSplit(buffer: seq<Txn>, k: nat)
    requires k <= |buffer|
    ensures PopOrder(buffer) == PopOrder(buffer[k..]) + PopOrder(buffer[..k])
    decreases |buffer|
  {
    if k == |buffer| {
      assert buffer[k..] == [] && buffer[..k] == buffer;
    } else {
      var front := buffer[..|buffer| - 1];
      PopOrderLast(buffer, k);
      PopOrderSplit(front, k);
      assert front[..k] == buffer[..k];
    }
  }

  /**
   * Splitting the pops at `k`: what is kept overall is what is kept above `k`,
   * then what is kept below it from the state the first part leaves.
   */
  lemma CollectSplit(s: State, buffer: seq<Txn>, k: nat, s1: State)
    requires k <= |buffer|
    requires s1 == ApplyAll(s, Kept(s, PopOrder(buffer[k..])))
    ensures Kept(s, PopOrder(buffer)) == Kept(s, PopOrder(buffer[k..])) + Kept(s1, PopOrder(buffer[..k]))
    ensures ApplyAll(s, Kept(s, PopOrder(buffer))) == ApplyAll(s1, Kept(s1, PopOrder(buffer[..k])))
  {
    PopOrderSplit(buffer, k);
    KeptAppend(s, PopOrder(buffer[k..]), PopOrder(buffer[..k]));
    ApplyAllAppend(s, Kept(s, PopOrder(buffer[k..])), Kept(s1, PopOrder(buffer[..k])));
  }

  /** A batch started empty holds what is kept from the popped part of the buffer, and its state is their effect. */
  lemma BatchCollects(s: State, buffer: seq<Txn>, limit: nat)
    ensures var b := FillBatch(s, buffer, [], limit);
      && b.rest == buffer[..|b.rest|]
      && b.txns == Kept(s, PopOrder(buffer[|b.rest|..]))
      && b.state == ApplyAll(s, b.txns)
  {
    var b := FillBatch(s, buffer, [], limit);
    assert b.txns[0..] == b.txns;
  }

  /** Sealing a batch in front of further blocks puts its transactions first. */
  lemma FlattenCons(b: Block, blocks: seq<Block>)
    ensures Flatten([b] + blocks) == b.contents.txns + Flatten(blocks)
  {
    assert ([b] + blocks)[1..] == blocks;
  }

  /**
   * The outer loop loses and invents nothing: the blocks it appends hold, in
   * pop order, exactly the transactions admissible when popped, and the final
   * state is the result of applying them.
   */
  lemma {:induction false} BuildFromCollects(H: Hasher, s: State, chain: seq<Block>, buffer: seq<Txn>, limit: nat)
    requires |chain| > 0 && limit > 0
    ensures var r := BuildFrom(H, s, chain, buffer, limit);
      && Flatten(r.chain[|chain|..]) == Kept(s, PopOrder(buffer))
      && r.state == ApplyAll(s, Kept(s, PopOrder(buffer)))
    decreases |buffer|
  {
    if |buffer| == 0 {
      var r := BuildFrom(H, s, chain, buffer, limit);
      assert r.chain[|chain|..] == [];
    } else {
      var b := FillBatch(s, buffer, [], limit);
      BatchCollects(s, buffer, limit);
      var blk := MakeBlock(H, chain[|chain| - 1], b.txns);
      var c := chain + [blk];
      BuildFromUnfold(H, s, chain, buffer, limit);
      var r := BuildFrom(H, b.state, c, b.rest, limit);
      BuildFromCollects(H, b.state, c, b.rest, limit);
      assert |c| == |chain| + 1;
      assert |r.chain| > |chain| && r.chain[..|chain| + 1] == chain + [blk];
      assert b.rest == buffer[..|b.rest|];
      CollectStep(s, buffer, |b.rest|, b.state, chain, blk, r.chain, r.state);
    }
  }

  /** One round of BuildFromCollects, stated on the batch, the sealed block and the rest of the build. */
  lemma CollectStep(s: State, buffer: seq<Txn>, k: nat, s1: State, chain: seq<Block>, blk: Block,
                    longer: seq<Block>, final: State)
    requires k <= |buffer|
    requires blk.contents.txns == Kept(s, PopOrder(buffer[k..]))
    requires s1 == ApplyAll(s, blk.contents.txns)
    requires |longer| > |chain| && longer[..|chain| + 1] == chain + [blk]
    requires Flatten(longer[|chain| + 1..]) == Kept(s1, PopOrder(buffer[..k]))
    requires final == ApplyAll(s1, Kept(s1, PopOrder(buffer[..k])))
    ensures Flatten(longer[|chain|..]) == Kept(s, PopOrder(buffer))
    ensures final == ApplyAll(s, Kept(s, PopOrder(buffer)))
  {
    SuffixAfterAppend(longer, chain, blk);
    FlattenCons(blk, longer[|chain| + 1..]);
    CollectSplit(s, buffer, k, s1);
  }

  /** One round of the outer loop on a non-empty buffer. */
  lemma BuildFromUnfold(H: Hasher, s: State, chain: seq<Block>, buffer: seq<Txn>, limit: nat)
    requires |chain| > 0 && limit > 0 && |buffer| > 0
    ensures var b := FillBatch(s, buffer, [], limit);
      BuildFrom(H, s, chain, buffer, limit)
        == BuildFrom(H, b.state, chain + [MakeBlock(H, chain[|chain| - 1], b.txns)], b.rest, limit)
  {
  }

  /** What follows `chain` in an extension of `chain + [b]` starts with `b`. */
  lemma SuffixAfterAppend(longer: seq<Block>, chain: seq<Block>, b: Block)
    requires |longer| > |chain| && longer[..|chain| + 1] == chain + [b]
    ensures longer[|chain|..] == [b] + longer[|chain| + 1..]
  {
    assert longer[|chain|] == (longer[..|chain| + 1])[|chain|] == b;
  }

  /** A built chain's blocks after genesis hold exactly the admissible transactions of the buffer, in pop order. */
  lemma BuildSpecCollects(H: Hasher, init: State, buffer: seq<Txn>, limit: nat)
    requires limit > 0
    ensures var r := BuildSpec(H, init, buffer, limit);
      && Flatten(r.chain[1..]) == Kept(init, PopOrder(buffer))
      && r.state == ApplyAll(init, Kept(init, PopOrder(buffer)))
  {
    BuildFromCollects(H, init, [Genesis(H, init)], buffer, limit);
  }

  /**
   * The shape every built chain has: block `i` has number `i`, and every block
   * after genesis was sealed by MakeBlock from its predecessor with at most
   * `limit` transactions.
   */
  ghost predicate WellFormed(H: Hasher, chain: seq<Block>, limit: nat)
  {
    && |chain| > 0
    && (forall i :: 0 <= i < |chain| ==> chain[i].contents.blockNumber == i)
    && (forall i :: 1 <= i < |chain| ==>
          |chain[i].contents.txns| <= limit && chain[i] == MakeBlock(H, chain[i - 1], chain[i].contents.txns))
  }

  /** Every block strictly between genesis and the last block is full. */
  ghost predicate FullExceptLast(chain: seq<Block>, limit: nat)
  {
    forall i :: 1 <= i < |chain| - 1 ==> |chain[i].contents.txns| == limit
  }

  /** Appending the block that seals a batch keeps the chain well formed. */
  lemma AppendWellFormed(H: Hasher, chain: seq<Block>, txns: seq<Txn>, limit: nat)
    requires WellFormed(H, chain, limit) && |txns| <= limit
    ensures WellFormed(H, chain + [MakeBlock(H, chain[|chain| - 1], txns)], limit)
  {
    var c := chain + [MakeBlock(H, chain[|chain| - 1], txns)];
    assert forall i :: 0 <= i < |chain| ==> c[i] == chain[i];
  }

  /**
   * Building from a well-formed chain that validates to the running state
   * yields a well-formed chain that validates to the final running state,
   * with every block but the last one full.
   */
  lemma {:induction false} BuildFromSound(H: Hasher, s: State, chain: seq<Block>, buffer: seq<Txn>, limit: nat)
    requires limit > 0
    requires WellFormed(H, chain, limit) && CheckChain(H, chain) == Ok(s)
    requires FullExceptLast(chain, limit)
    requires |chain| == 1 || |chain[|chain| - 1].contents.txns| == limit
    ensures WellFormed(H, BuildFrom(H, s, chain, buffer, limit).chain, limit)
    ensures CheckChain(H, BuildFrom(H, s, chain, buffer, limit).chain) == Ok(BuildFrom(H, s, chain, buffer, limit).state)
    ensures FullExceptLast(BuildFrom(H, s, chain, buffer, limit).chain, limit)
    decreases |buffer|
  {
    if |buffer| > 0 {
      var b := FillBatch(s, buffer, [], limit);
      assert b.txns[0..] == b.txns;
      var blk := MakeBlock(H, chain[|chain| - 1], b.txns);
      var c := chain + [blk];
      AppendWellFormed(H, chain, b.txns, limit);
      CheckChainAppend(H, chain, blk);
      assert CheckChain(H, c) == Ok(b.state);
      assert forall i :: 0 <= i < |chain| ==> c[i] == chain[i];
      assert FullExceptLast(c, limit);
      if |b.txns| == limit {
        BuildFromSound(H, b.state, c, b.rest, limit);
      } else {
        assert b.rest == [];
      }
    }
  }

  /** What BuildSpec promises: the shape, the validation result, and the genesis block. */
  lemma BuildSpecSound(H: Hasher, init: State, buffer: seq<Txn>, limit: nat)
    requires limit > 0
    ensures var r := BuildSpec(H, init, buffer, limit);
      && WellFormed(H, r.chain, limit)
      && FullExceptLast(r.chain, limit)
      && r.chain[0] == Genesis(H, init)
      && CheckChain(H, r.chain) == Ok(r.state)
  {
    GenesisReplay(H, init);
    BuildFromSound(H, init, [Genesis(H, init)], buffer, limit);
  }

  /** The properties of a built chain, read off the well-formedness of BuildSpec's result. */
  lemma BuildSpecShape(H: Hasher, init: State, buffer: seq<Txn>, limit: nat)
    requires limit > 0
    ensures var r := BuildSpec(H, init, buffer, limit);
      && |r.chain| > 0 && r.chain[0] == Genesis(H, init)
      && (forall i :: 0 <= i < |r.chain| ==> r.chain[i].contents.blockNumber == i)
      && (forall i :: 1 <= i < |r.chain| ==>
            && |r.chain[i].contents.txns| <= limit
            && r.chain[i].contents.txnCount == |r.chain[i].contents.txns|
            && HashIntact(H, r.chain[i])
            && Linked(r.chain[i - 1], r.chain[i]))
      && (forall i :: 1 <= i < |r.chain| - 1 ==> |r.chain[i].contents.txns| == limit)
      && CheckChain(H, r.chain) == Ok(r.state)
      && (buffer == [] ==> r == Built([Genesis(H, init)], init))
      && (buffer != [] ==> |r.chain| > 1)
  {
    BuildSpecSound(H, init, buffer, limit);
    var r := BuildSpec(H, init, buffer, limit);
    forall i | 1 <= i < |r.chain|
      ensures r.chain[i].contents.txnCount == |r.chain[i].contents.txns|
      ensures HashIntact(H, r.chain[i]) && Linked(r.chain[i - 1], r.chain[i])
    {
      assert r.chain[i] == MakeBlock(H, r.chain[i - 1], r.chain[i].contents.txns);
    }
  }

  /**
   * The chain-building loop. Starting from the genesis block for `init`, it
   * drains `buffer` from its end into blocks of at most `limit` transactions
   * and returns the chain together with the builder's running state.
   */
  method BuildChain(H: Hasher, init: State, buffer: seq<Txn>, limit: nat) returns (chain: seq<Block>, state: State)
    requires limit > 0
    ensures Built(chain, state) == BuildSpec(H, init, buffer, limit)
    ensures |chain| > 0 && chain[0] == Genesis(H, init)
    ensures forall i :: 0 <= i < |chain| ==> chain[i].contents.blockNumber == i
    ensures forall i :: 1 <= i < |chain| ==>
              && |chain[i].contents.txns| <= limit
              && chain[i].contents.txnCount == |chain[i].contents.txns|
              && HashIntact(H, chain[i])
              && Linked(chain[i - 1], chain[i])
    ensures forall i :: 1 <= i < |chain| - 1 ==> |chain[i].contents.txns| == limit
    ensures CheckChain(H, chain) == Ok(state)
    ensures buffer == [] ==> chain == [Genesis(H, init)] && state == init
    ensures buffer != [] ==> |chain| > 1
    ensures Flatten(chain[1..]) == Kept(init, PopOrder(buffer))
    ensures state == ApplyAll(init, Kept(init, PopOrder(buffer)))
  {
    chain := [Genesis(H, init)];
    state := init;
    var buf := buffer;
    while |buf| > 0
      invariant |chain| > 0
      invariant BuildFrom(H, state, chain, buf, limit) == BuildSpec(H, init, buffer, limit)
      decreases |buf|
    {
      ghost var s0, b0 := state, buf;
      var txnList: seq<Txn> := [];
      while |buf| > 0 && |txnList| < limit
        invariant FillBatch(state, buf, txnList, limit) == FillBatch(s0, b0, [], limit)
        decreases |buf|
      {
        var t := buf[|buf| - 1];
        buf := buf[..|buf| - 1];
        var ok := IsValidTxn(t, state);
        if ok {
          txnList := txnList + [t];
          state := UpdateState(state, t);
        }
      }
      assert Batch(state, txnList, buf) == FillBatch(s0, b0, [], limit);
      chain := chain + [MakeBlock(H, chain[|chain| - 1], txnList)];
    }
    BuildSpecShape(H, init, buffer, limit);
    BuildSpecCollects(H, init, buffer, limit);
  }

  /** The genesis block hands out 200 tokens and no negative balance. */
  lemma GenesisHolds200(H: Hasher)
    ensures Total(GenesisState(Genesis(H, GenesisBalances))) == 200
    ensures NonNegative(GenesisState(Genesis(H, GenesisBalances)))
  {
    TotalOfPair(GenesisBalances, "Alice", "Bob");
    UpdateEmpty(GenesisBalances);
    assert GenesisState(Genesis(H, GenesisBalances)) == ApplyAll(UpdateState(map[], GenesisBalances), []);
  }

  /**
   * Builds the chain the ledger starts with: Alice and Bob at 100 each and
   * blocks of at most ten transactions. The replayed state keeps all 200
   * tokens and never goes negative.
   */
  method CreateChain(H: Hasher, buffer: seq<Txn>) returns (chain: seq<Block>, state: State)
    ensures Built(chain, state) == BuildSpec(H, GenesisBalances, buffer, BlockSizeLimit)
    ensures CheckChain(H, chain) == Ok(state)
    ensures Total(state) == 200 && NonNegative(state)
  {
    chain, state := BuildChain(H, GenesisBalances, buffer, BlockSizeLimit);
    GenesisHolds200(H);
  }
}

=== FILE: ledger.dfy ===
/**
 * Account balances and transactions of the ledger: the functional state update,
 * the sum of a map's values, and the admission rule for a transaction
 * (conservation of tokens and no overdraft).
 */
module Ledger {

  type Account = string

  /** Balance of every account that has ever been touched. */
  type State = map<Account, int>

  /** A transaction maps each account it touches to a signed delta. */
  type Txn = map<Account, int>

  /** The balance of `a` in `m`; an account that is absent has balance 0. */
  function Bal(m: map<Account, int>, a: Account): int
  {
    if a in m then m[a] else 0
  }

  /** No account holds a negative balance. */
  predicate NonNegative(s: State)
  {
    forall a :: a in s ==> s[a] >= 0
  }

  /** The sum of the balances of the accounts in `keys`. */
  ghost function SumOn(m: map<Account, int>, keys: set<Account>): int
    decreases keys
  {
    if keys == {} then 0
    else
      var k :| k in keys;
      Bal(m, k) + SumOn(m, keys - {k})
  }

  /** The sum of all values of a map: total tokens of a state, net delta of a transaction. */
  ghost function Total(m: map<Account, int>): int
  {
    SumOn(m, m.Keys)
  }

  /** The sum does not depend on the key that the definition happens to pick first. */
  lemma {:induction false} SumOnRemove(m: map<Account, int>, keys: set<Account>, k: Account)
    requires k in keys
    ensures SumOn(m, keys) == Bal(m, k) + SumOn(m, keys - {k})
    decreases keys
  {
    var j :| j in keys && SumOn(m, keys) == Bal(m, j) + SumOn(m, keys - {j});
    if j != k {
      SumOnRemove(m, keys - {j}, k);
      SumOnRemove(m, keys - {k}, j);
      assert keys - {j} - {k} == keys - {k} - {j};
    }
  }

  /** Summing a pointwise sum of balances over a key set gives the sum of the two sums. */
  lemma {:induction false} SumOnPointwise(a: map<Account, int>, b: map<Account, int>,
                                          c: map<Account, int>, keys: set<Account>)
    requires forall k :: k in keys ==> Bal(c, k) == Bal(a, k) + Bal(b, k)
    ensures SumOn(c, keys) == SumOn(a, keys) + SumOn(b, keys)
    decreases keys
  {
    if keys != {} {
      var k :| k in keys;
      SumOnRemove(a, keys, k);
      SumOnRemove(b, keys, k);
      SumOnRemove(c, keys, k);
      SumOnPointwise(a, b, c, keys - {k});
    }
  }

  /** Absent accounts count as 0, so summing over any superset of the keys gives the total. */
  lemma {:induction false} SumOnCover(m: map<Account, int>, keys: set<Account>)
    requires m.Keys <= keys
    ensures SumOn(m, keys) == Total(m)
    decreases keys
  {
    if keys != m.Keys {
      assert exists k :: k in keys && k !in m.Keys;
      var k :| k in keys && k !in m.Keys;
      SumOnRemove(m, keys, k);
      SumOnCover(m, keys - {k});
    }
  }

  /** The total of a map with exactly two distinct accounts. */
  lemma TotalOfPair(m: map<Account, int>, a: Account, b: Account)
    requires a != b && m.Keys == {a, b}
    ensures Total(m) == m[a] + m[b]
  {
    SumOnRemove(m, {a, b}, a);
    assert {a, b} - {a} == {b};
    SumOnRemove(m, {b}, b);
    assert {b} - {b} == {};
  }

  /**
   * Applies a transaction to a state and returns a fresh state: every account of
   * the transaction moves by its delta, an account new to the state starts at
   * its delta, and every other account keeps its balance.
   */
  function UpdateState(s: State, t: Txn): (r: State)
    ensures r.Keys == s.Keys + t.Keys
    ensures forall a :: a in t && a in s ==> r[a] == s[a] + t[a]
    ensures forall a :: a in t && a !in s ==> r[a] == t[a]
    ensures forall a :: a !in t ==> Bal(r, a) == Bal(s, a)
  {
    map a | a in s.Keys + t.Keys :: Bal(s, a) + Bal(t, a)
  }

  /** Applying a transaction to the empty state yields the transaction itself. */
  lemma UpdateEmpty(t: Txn)
    ensures UpdateState(map[], t) == t
  {
    var r := UpdateState(map[], t);
    assert r.Keys == t.Keys;
    assert forall a :: a in r ==> r[a] == t[a];
  }

  /** Applying a transaction moves the total of the state by the net delta of the transaction. */
  lemma UpdateAddsTotal(s: State, t: Txn)
    ensures Total(UpdateState(s, t)) == Total(s) + Total(t)
  {
    var r := UpdateState(s, t);
    var keys := s.Keys + t.Keys;
    SumOnPointwise(s, t, r, keys);
    SumOnCover(s, keys);
    SumOnCover(t, keys);
  }

  /** Every account the transaction touches stays at or above zero. */
  predicate NoOverdraft(t: Txn, s: State)
  {
    forall a :: a in t ==> Bal(s, a) + t[a] >= 0
  }

  /** The admission rule: deltas sum to zero and no account is overdrawn. */
  ghost predicate ValidTxn(t: Txn, s: State)
  {
    Total(t) == 0 && NoOverdraft(t, s)
  }

  /**
   * Decides admission the way the ledger does: first the sum of all deltas,
   * then every touched account against its balance (absent means 0).
   */
  method IsValidTxn(t: Txn, s: State) returns (ok: bool)
    ensures ok <==> ValidTxn(t, s)
    ensures Total(t) != 0 ==> !ok
    ensures ok <==> Total(t) == 0 && forall a :: a in t ==> Bal(s, a) + t[a] >= 0
  {
    var sum := 0;
    var rest := t.Keys;
    while rest != {}
      invariant rest <= t.Keys
      invariant sum + SumOn(t, rest) == Total(t)
      decreases rest
    {
      var k :| k in rest;
      SumOnRemove(t, rest, k);
      sum := sum + t[k];
      rest := rest - {k};
    }
    if sum != 0 {
      return false;
    }
    var todo := t.Keys;
    while todo != {}
      invariant todo <= t.Keys
      invariant forall a :: a in t && a !in todo ==> Bal(s, a) + t[a] >= 0
      decreases todo
    {
      var k :| k in todo;
      if Bal(s, k) + t[k] < 0 {
        return false;
      }
      todo := todo - {k};
    }
    return true;
  }

  /** An admitted transaction leaves the total number of tokens unchanged. */
  lemma ValidTxnConserves(s: State, t: Txn)
    requires ValidTxn(t, s)
    ensures Total(UpdateState(s, t)) == Total(s)
  {
    UpdateAddsTotal(s, t);
  }

  /** An admitted transaction applied to a non-negative state leaves it non-negative. */
  lemma ValidTxnKeepsNonNegative(s: State, t: Txn)
    requires NonNegative(s) && NoOverdraft(t, s)
    ensures NonNegative(UpdateState(s, t))
  {
  }

  /** A transfer between two accounts is admitted exactly when it nets to zero and neither side is overdrawn. */
  lemma ValidPair(s: State, t: Txn, a: Account, b: Account)
    requires a != b && t.Keys == {a, b}
    ensures ValidTxn(t, s) <==> t[a] + t[b] == 0 && Bal(s, a) + t[a] >= 0 && Bal(s, b) + t[b] >= 0
  {
    TotalOfPair(t, a, b);
  }

  /** Applying a two-account transfer to a two-account state over the same accounts. */
  lemma UpdatePair(s: State, t: Txn, a: Account, b: Account)
    requires a != b && s.Keys == {a, b} && t.Keys == {a, b}
    ensures UpdateState(s, t) == map[a := s[a] + t[a], b := s[b] + t[b]]
  {
    var r := UpdateState(s, t);
    var m := map[a := s[a] + t[a], b := s[b] + t[b]];
    assert r.Keys == m.Keys;
    assert forall k :: k in r ==> r[k] == m[k];
  }

  /** Applies transactions in order without checking them. */
  function ApplyAll(s: State, txns: seq<Txn>): (r: State)
    decreases |txns|
  {
    if txns == [] then s else ApplyAll(UpdateState(s, txns[0]), txns[1..])
  }

  /** Applying two runs of transactions is applying the first, then the second. */
  lemma {:induction false} ApplyAllAppend(s: State, xs: seq<Txn>, ys: seq<Txn>)
    ensures ApplyAll(s, xs + ys) == ApplyAll(ApplyAll(s, xs), ys)
    decreases |xs|
  {
    if xs != [] {
      assert (xs + ys)[0] == xs[0] && (xs + ys)[1..] == xs[1..] + ys;
      ApplyAllAppend(UpdateState(s, xs[0]), xs[1..], ys);
    } else {
      assert xs + ys == ys;
    }
  }
}

=== FILE: results.dfy ===
/** Small failure-carrying datatypes shared by the ledger modules. */
module Results {

  /** A value that may be absent; the genesis block's parent hash is `None`. */
  datatype Option<T> = None | Some(value: T)

  /** Either a computed value or the reason the computation stopped. */
  datatype Result<T, E> = Ok(value: T) | Err(error: E)
}

=== FILE: scenarios.dfy ===
/** A worked example, stated on the functional model of chain building. */
module Scenarios {
  import opened Results
  import opened Ledger
  import opened Blocks
  import opened Validation
  import opened Builder

  /** Alice pays Bob 30. */
  const Transfer: Txn := map["Alice" := -30, "Bob" := 30]

  /**
   * A single affordable transfer is admitted and sealed into block 1; both
   * the builder and the replay end at Alice 70, Bob 130.
   */
  lemma TransferAccepted(H: Hasher)
    ensures var g := Genesis(H, GenesisBalances);
            var built := BuildSpec(H, GenesisBalances, [Transfer], BlockSizeLimit);
      && built == Built([g, MakeBlock(H, g, [Transfer])], map["Alice" := 70, "Bob" := 130])
      && CheckChain(H, built.chain) == Ok(map["Alice" := 70, "Bob" := 130])
  {
    var g := Genesis(H, GenesisBalances);
    var s1 := map["Alice" := 70, "Bob" := 130];
    ValidPair(GenesisBalances, Transfer, "Alice", "Bob");
    UpdatePair(GenesisBalances, Transfer, "Alice", "Bob");
    assert [Transfer][..0] == [];
    assert [] + [Transfer] == [Transfer];
    assert FillBatch(GenesisBalances, [Transfer], [], BlockSizeLimit) == Batch(s1, [Transfer], []);
    var b1 := MakeBlock(H, g, [Transfer]);
    assert [g] + [b1] == [g, b1];
    assert BuildFrom(H, s1, [g, b1], [], BlockSizeLimit) == Built([g, b1], s1);
    BuildSpecSound(H, GenesisBalances, [Transfer], BlockSizeLimit);
  }
}

=== FILE: validation.dfy ===
/**
 * Replay validation of a whole chain. Starting from the empty state, the
 * genesis transactions are applied unchecked; every later block must admit
 * each of its transactions against the running state, carry the hash of its
 * contents, follow its parent's number and name its parent's hash. The first
 * failure stops the replay and names the offending block.
 *
 * This is the threaded replay the validator's own comments describe; the
 * code as written checks every block against the builder's final state
 * instead, which module AsWritten models.
 */
module Validation {
  import opened Results
  import opened Ledger
  import opened Blocks

  datatype ChainError =
    | HashMismatch(blockNumber: int)
    | InvalidTransaction(blockNumber: int, txn: Txn)
    | BlockNumberMismatch(blockNumber: int)
    | ParentHashMismatch(blockNumber: int)
      /** Validation was asked to check a chain without a genesis block. */
    | EmptyChain
      /** Only the code as written reaches this: a block without transactions leaves its result unset. */
    | UnboundState(blockNumber: int)

  /** The error names block number `n`. */
  predicate NamesBlock(e: ChainError, n: int)
  {
    !e.EmptyChain? && e.blockNumber == n
  }

  /** Compares the stored hash with the hash of the contents. */
  function CheckBlockHash(H: Hasher, b: Block): (r: Result<(), ChainError>)
    ensures r.Ok? <==> HashIntact(H, b)
    ensures r.Err? ==> r.error == HashMismatch(b.contents.blockNumber)
  {
    if b.hash != H(b.contents) then Err(HashMismatch(b.contents.blockNumber)) else Ok(())
  }

  /**
   * Admits and applies transactions in order, threading the state; stops at
   * the first transaction that is not admissible and returns it.
   */
  ghost function ReplayTxns(s: State, txns: seq<Txn>): (r: Result<State, Txn>)
    ensures r.Ok? ==> r.value == ApplyAll(s, txns)
    ensures r.Ok? ==> Total(r.value) == Total(s)
    ensures r.Ok? && NonNegative(s) ==> NonNegative(r.value)
    ensures r.Err? ==> r.error in txns
    decreases |txns|
  {
    if txns == [] then Ok(s)
    else if !ValidTxn(txns[0], s) then Err(txns[0])
    else
      ValidTxnConserves(s, txns[0]);
      ReplayTxns(UpdateState(s, txns[0]), txns[1..])
  }

  /** Replaying an admissible first transaction continues from the state it produces. */
  lemma ReplayCons(s: State, t: Txn, txns: seq<Txn>)
    requires ValidTxn(t, s)
    ensures ReplayTxns(s, [t] + txns) == ReplayTxns(UpdateState(s, t), txns)
  {
    assert ([t] + txns)[0] == t && ([t] + txns)[1..] == txns;
  }

  /** A replay that succeeds admitted every transaction against the state reached before it. */
  lemma {:induction false} ReplayAdmitsEach(s: State, txns: seq<Txn>, i: nat)
    requires ReplayTxns(s, txns).Ok?
    requires i < |txns|
    ensures ValidTxn(txns[i], ApplyAll(s, txns[..i]))
    decreases i
  {
    var s1 := UpdateState(s, txns[0]);
    if i == 0 {
      assert ApplyAll(s, txns[..0]) == s;
    } else {
      assert ReplayTxns(s1, txns[1..]).Ok?;
      ReplayAdmitsEach(s1, txns[1..], i - 1);
      assert txns[1..][i - 1] == txns[i];
      ApplyAllPrefix(s, txns, i);
    }
  }

  /** Applying the first `i` transactions is applying the first one, then the next `i - 1`. */
  lemma ApplyAllPrefix(s: State, txns: seq<Txn>, i: nat)
    requires 0 < i <= |txns|
    ensures ApplyAll(s, txns[..i]) == ApplyAll(UpdateState(s, txns[0]), txns[1..][..i - 1])
  {
    assert txns[..i][0] == txns[0] && txns[..i][1..] == txns[1..][..i - 1];
  }

  /**
   * The converse of ReplayAdmitsEach: when each transaction is admissible
   * against the state the earlier ones produce, the replay succeeds.
   */
  lemma {:induction false} ReplayAcceptsAdmissible(s: State, txns: seq<Txn>)
    requires forall i :: 0 <= i < |txns| ==> ValidTxn(txns[i], ApplyAll(s, txns[..i]))
    ensures ReplayTxns(s, txns).Ok?
    decreases |txns|
  {
    if txns != [] {
      assert ApplyAll(s, txns[..0]) == s;
      assert ValidTxn(txns[0], s);
      var s1 := UpdateState(s, txns[0]);
      var tail := txns[1..];
      forall i | 0 <= i < |tail|
        ensures ValidTxn(tail[i], ApplyAll(s1, tail[..i]))
      {
        assert ValidTxn(txns[i + 1], ApplyAll(s, txns[..i + 1]));
        ApplyAllPrefix(s, txns, i + 1);
      }
      ReplayAcceptsAdmissible(s1, tail);
    }
  }

  /** Admissibility of each of the first `k - 1` transactions after an admissible first one carries over to the first `k`. */
  lemma AdmissibleShift(s: State, txns: seq<Txn>, k: nat)
    requires 0 < k <= |txns| && ValidTxn(txns[0], s)
    requires forall j :: 0 <= j < k - 1 ==> ValidTxn(txns[1..][j], ApplyAll(UpdateState(s, txns[0]), txns[1..][..j]))
    ensures forall j :: 0 <= j < k ==> ValidTxn(txns[j], ApplyAll(s, txns[..j]))
  {
    assert ApplyAll(s, txns[..0]) == s;
    forall j | 0 <= j < k
      ensures ValidTxn(txns[j], ApplyAll(s, txns[..j]))
    {
      if j > 0 {
        ApplyAllPrefix(s, txns, j);
        assert txns[1..][j - 1] == txns[j];
      }
    }
  }

  /**
   * A failed replay reports the first transaction that is not admissible
   * against the state the transactions before it produce.
   */
  lemma {:induction false} ReplayStopsAtFirst(s: State, txns: seq<Txn>) returns (k: nat)
    requires ReplayTxns(s, txns).Err?
    ensures k < |txns| && txns[k] == ReplayTxns(s, txns).error
    ensures !ValidTxn(txns[k], ApplyAll(s, txns[..k]))
    ensures forall j :: 0 <= j < k ==> ValidTxn(txns[j], ApplyAll(s, txns[..j]))
    decreases |txns|
  {
    assert ApplyAll(s, txns[..0]) == s;
    if !ValidTxn(txns[0], s) {
      k := 0;
    } else {
      var s1 := UpdateState(s, txns[0]);
      var tail := txns[1..];
      assert [txns[0]] + tail == txns;
      ReplayCons(s, txns[0], tail);
      var k' := ReplayStopsAtFirst(s1, tail);
      k := k' + 1;
      assert txns[k] == tail[k'];
      ApplyAllPrefix(s, txns, k);
      AdmissibleShift(s, txns, k);
    }
  }

  /**
   * Validates one block against its parent, starting from the state before
   * the block: transactions first, then the stored hash, the block number and
   * the parent hash, in that order. Returns the state after the block.
   */
  ghost function CheckBlockValidity(H: Hasher, s: State, b: Block, parent: Block): (r: Result<State, ChainError>)
    ensures r.Ok? <==> ReplayTxns(s, b.contents.txns).Ok? && HashIntact(H, b) && Linked(parent, b)
    ensures r.Ok? ==> r.value == ReplayTxns(s, b.contents.txns).value
    ensures r.Err? ==> NamesBlock(r.error, b.contents.blockNumber)
    ensures ReplayTxns(s, b.contents.txns).Err? ==>
              r == Err(InvalidTransaction(b.contents.blockNumber, ReplayTxns(s, b.contents.txns).error))
    ensures ReplayTxns(s, b.contents.txns).Ok? && !HashIntact(H, b) ==> r == Err(HashMismatch(b.contents.blockNumber))
    ensures (&& ReplayTxns(s, b.contents.txns).Ok? && HashIntact(H, b)
             && b.contents.blockNumber != parent.contents.blockNumber + 1)
            ==> r == Err(BlockNumberMismatch(b.contents.blockNumber))
    ensures (&& ReplayTxns(s, b.contents.txns).Ok? && HashIntact(H, b)
             && b.contents.blockNumber == parent.contents.blockNumber + 1
             && b.contents.parentHash != Some(parent.hash))
            ==> r == Err(ParentHashMismatch(b.contents.blockNumber))
  {
    var n := b.contents.blockNumber;
    match ReplayTxns(s, b.contents.txns)
    case Err(t) => Err(InvalidTransaction(n, t))
    case Ok(s') =>
      match CheckBlockHash(H, b)
      case Err(e) => Err(e)
      case Ok(_) =>
        if n != parent.contents.blockNumber + 1 then Err(BlockNumberMismatch(n))
        else if b.contents.parentHash != Some(parent.hash) then Err(ParentHashMismatch(n))
        else Ok(s')
  }

  /** The state the genesis block sets up: its transactions applied unchecked to the empty state. */
  function GenesisState(g: Block): State
  {
    ApplyAll(map[], g.contents.txns)
  }

  /** Replays the genesis block and checks its hash; its number and parent are not checked. */
  function CheckGenesis(H: Hasher, g: Block): (r: Result<State, ChainError>)
    ensures r.Ok? <==> HashIntact(H, g)
    ensures r.Ok? ==> r.value == GenesisState(g)
    ensures r.Err? ==> r.error == HashMismatch(g.contents.blockNumber)
  {
    var s := GenesisState(g);
    match CheckBlockHash(H, g)
    case Err(e) => Err(e)
    case Ok(_) => Ok(s)
  }

  /**
   * Validates a whole chain, genesis first, and returns the replayed final
   * state, or the first failure in chain order.
   */
  ghost function CheckChain(H: Hasher, chain: seq<Block>): (r: Result<State, ChainError>)
    ensures r.Ok? ==> |chain| > 0
    ensures r.Ok? ==> forall i :: 0 <= i < |chain| ==> HashIntact(H, chain[i])
    ensures r.Ok? ==> forall i :: 1 <= i < |chain| ==> Linked(chain[i - 1], chain[i])
    ensures r.Ok? ==> Total(r.value) == Total(GenesisState(chain[0]))
    ensures r.Ok? && NonNegative(GenesisState(chain[0])) ==> NonNegative(r.value)
    ensures r.Err? ==> (r.error == EmptyChain <==> |chain| == 0)
    ensures r.Err? && |chain| > 0 ==> exists i :: 0 <= i < |chain| && NamesBlock(r.error, chain[i].contents.blockNumber)
    decreases |chain|
  {
    if |chain| == 0 then Err(EmptyChain)
    else if |chain| == 1 then CheckGenesis(H, chain[0])
    else
      var prefix := chain[..|chain| - 1];
      match CheckChain(H, prefix)
      case Err(e) =>
        assert forall i :: 0 <= i < |prefix| ==> prefix[i] == chain[i];
        Err(e)
      case Ok(s) =>
        assert forall i :: 0 <= i < |prefix| ==> prefix[i] == chain[i];
        CheckBlockValidity(H, s, chain[|chain| - 1], chain[|chain| - 2])
  }

  /** Appending a block validates the new block against the state the prefix replays to. */
  lemma CheckChainAppend(H: Hasher, chain: seq<Block>, b: Block)
    requires |chain| > 0
    ensures CheckChain(H, chain + [b]) ==
              match CheckChain(H, chain)
              case Err(e) => Err(e)
              case Ok(s) => CheckBlockValidity(H, s, b, chain[|chain| - 1])
  {
    assert (chain + [b])[..|chain|] == chain;
  }

  /** A valid chain of two or more blocks has a valid chain without its last block. */
  lemma CheckChainUnfold(H: Hasher, chain: seq<Block>)
    requires |chain| >= 2 && CheckChain(H, chain).Ok?
    ensures CheckChain(H, chain[..|chain| - 1]).Ok?
  {
  }

  /** Every non-empty prefix of a valid chain is valid. */
  lemma {:induction false} CheckChainPrefix(H: Hasher, chain: seq<Block>, k: nat)
    requires CheckChain(H, chain).Ok?
    requires 1 <= k <= |chain|
    ensures CheckChain(H, chain[..k]).Ok?
    decreases |chain|
  {
    if k == |chain| {
      assert chain[..k] == chain;
    } else {
      var prefix := chain[..|chain| - 1];
      CheckChainUnfold(H, chain);
      CheckChainPrefix(H, prefix, k);
      assert prefix[..k] == chain[..k];
    }
  }

  /**
   * Fail-fast: once the blocks before `i` replay to `s` and block `i` fails,
   * the whole chain fails with exactly block `i`'s error.
   */
  lemma {:induction false} ErrorAtFirstFault(H: Hasher, chain: seq<Block>, i: nat, s: State)
    requires 1 <= i < |chain|
    requires CheckChain(H, chain[..i]) == Ok(s)
    requires CheckBlockValidity(H, s, chain[i], chain[i - 1]).Err?
    ensures CheckChain(H, chain) == CheckBlockValidity(H, s, chain[i], chain[i - 1])
    decreases |chain|
  {
    if i + 1 < |chain| {
      var prefix := chain[..|chain| - 1];
      assert prefix[..i] == chain[..i];
      ErrorAtFirstFault(H, prefix, i, s);
    } else {
      assert chain[..|chain| - 1] == chain[..i];
    }
  }

  /** Once a prefix fails, the whole chain fails with the same error. */
  lemma {:induction false} ErrorPersists(H: Hasher, chain: seq<Block>, k: nat)
    requires 1 <= k <= |chain|
    requires CheckChain(H, chain[..k]).Err?
    ensures CheckChain(H, chain) == CheckChain(H, chain[..k])
    decreases |chain|
  {
    if k == |chain| {
      assert chain[..k] == chain;
    } else {
      var prefix := chain[..|chain| - 1];
      assert prefix[..k] == chain[..k];
      ErrorPersists(H, prefix, k);
    }
  }

  /**
   * A block whose stored hash is wrong, or that does not follow its
   * predecessor by number and parent hash, makes validation fail, and the
   * error names that block or an earlier one.
   */
  lemma BrokenBlockRejected(H: Hasher, chain: seq<Block>, i: nat)
    requires i < |chain|
    requires !HashIntact(H, chain[i]) || (i > 0 && !Linked(chain[i - 1], chain[i]))
    ensures CheckChain(H, chain).Err?
    ensures exists j :: 0 <= j <= i && NamesBlock(CheckChain(H, chain).error, chain[j].contents.blockNumber)
  {
    var prefix := chain[..i + 1];
    assert prefix[i] == chain[i];
    assert i > 0 ==> prefix[i - 1] == chain[i - 1];
    assert CheckChain(H, prefix).Err?;
    ErrorPersists(H, chain, i + 1);
    var j :| 0 <= j < |prefix| && NamesBlock(CheckChain(H, prefix).error, prefix[j].contents.blockNumber);
    assert prefix[j] == chain[j];
  }

  /** The chain holding only the genesis block replays to the initial balances. */
  lemma GenesisReplay(H: Hasher, init: State)
    ensures CheckChain(H, [Genesis(H, init)]) == Ok(init)
  {
    UpdateEmpty(init);
    assert ApplyAll(map[], [init]) == ApplyAll(UpdateState(map[], init), []);
  }

  /** A linked, correctly hashed block without transactions passes the running state on. */
  lemma EmptyBlockPassesState(H: Hasher, s: State, b: Block, parent: Block)
    requires b.contents.txns == [] && HashIntact(H, b) && Linked(parent, b)
    ensures CheckBlockValidity(H, s, b, parent) == Ok(s)
  {
  }

  /**
   * Tampering with arbitrary transactions: when the blocks before `i` are
   * intact and the new contents hash differently, validation fails at block
   * `i`, either on a forged transaction or on the hash.
   */
  lemma TamperedBlockFails(H: Hasher, chain: seq<Block>, i: nat, s: State, forged: seq<Txn>)
    requires 1 <= i < |chain|
    requires CheckChain(H, chain[..i]) == Ok(s)
    requires H(chain[i].contents.(txns := forged)) != chain[i].hash
    ensures var e := CheckChain(H, chain[i := Block(chain[i].hash, chain[i].contents.(txns := forged))]);
      && e.Err?
      && NamesBlock(e.error, chain[i].contents.blockNumber)
      && (e.error.InvalidTransaction? || e.error.HashMismatch?)
  {
    var b := Block(chain[i].hash, chain[i].contents.(txns := forged));
    var tampered := chain[i := b];
    assert tampered[..i] == chain[..i];
    assert tampered[i - 1] == chain[i - 1];
    ErrorAtFirstFault(H, tampered, i, s);
  }

  /**
   * Tampering: replacing the transactions of block `i` without recomputing its
   * stored hash is reported as a hash mismatch at that block, as long as the
   * blocks before it are intact, the new transactions are admissible, and the
   * new contents hash differently.
   */
  lemma TamperedBlockRejected(H: Hasher, chain: seq<Block>, i: nat, s: State, forged: seq<Txn>)
    requires 1 <= i < |chain|
    requires CheckChain(H, chain[..i]) == Ok(s)
    requires ReplayTxns(s, forged).Ok?
    requires H(chain[i].contents.(txns := forged)) != chain[i].hash
    ensures CheckChain(H, chain[i := Block(chain[i].hash, chain[i].contents.(txns := forged))])
              == Err(HashMismatch(chain[i].contents.blockNumber))
  {
    var b := Block(chain[i].hash, chain[i].contents.(txns := forged));
    var tampered := chain[i := b];
    assert tampered[..i] == chain[..i];
    assert tampered[i - 1] == chain[i - 1];
    ErrorAtFirstFault(H, tampered, i, s);
  }
}
